=== FILE: README.md ===
# MQTT sensor publisher: loader and send rules

This project models the server side of a small MQTT sensor demo (`mqtt-server.cpp`):

- **The loader `fill_data`.** It reads a CSV file of temperature readings, one line at a time. It drops the header line and skips empty lines. For each other line it finds fields 0 (time), 3 (board id) and 6 (average temperature) by repeated `find(',')`. It then stores the reading in the two-level table `board_table`: board id -> `board`, and in each board, timestamp -> `data`.
- **The per-board publisher `publisher_connection`.** This covers its topic `"sensor/<id>"`, the send rules of its `run` loop, and the `on_disconnect` callback.

The model takes the source's own form:

- **The loader is imperative.** `Loader.SensorStore` is the global `board_table`, held as a `map` field.
  - `FillData` is the `while` loop over the lines.
  - `ReadLine` is the body of that loop.
  - `ScanFields` is one of the two three-round `for` loops that move `lastPos`/`firstPos`.
  - `Upsert` is the find-or-create of the board, then the insert or field-by-field overwrite of the record.
- **Each method is proved against a specification function.** `ReadLine` is proved against `EventOf`, `Upsert` against `Apply`, and `FillData` against `Load`, a left fold of `LoadStep` over the line events. The lemmas about the loader are stated on those functions.
- **The publisher is a class.** `Publishing.Publisher` has the fields `sending` and `cursor` (the iterator `data_ptr`). `Step` is one round of the endless `run` loop, and `OnDisconnect` is the callback.

The C++ standard-library behaviour the loader depends on is modelled in `Text`:

- **`std::string::find` and `substr` with `size_t` arithmetic.** `npos` is 2^64 - 1, and `npos + 1` wraps to 0.
- **`std::stoi` is modelled concretely.** It skips white space, reads an optional sign and the digits, and checks the range of `int`. `None` stands for the exception it throws.
- **`std::to_string` of an unsigned value**, and the conversions to `uint32_t`/`uint64_t`, which are the value modulo 2^32 or 2^64.
- **`Split` is an independent reference.** It gives the comma-separated fields of a line, and the loader's position arithmetic is proved against it.

Two quirks of the loader are modelled as written:

- **Overlong substrings.** `line.substr(lastPos, firstPos)` passes an end position as a length. The text handed to `std::stoi` and `std::stod` therefore starts at the field and runs past its comma. `ParseOfLongLine` shows that this is harmless for the board id, because `std::stoi` stops at the comma (`StoiStopsAtComma`). The temperature is whatever `std::stod` reads from its overlong text.
- **Missing commas.** On a line with too few commas, `find` gives `npos` and `npos + 1` is 0, so the scan starts again at the head of the line. On a line without any comma every parser is handed the whole line (`LineWithoutComma`). With one or two commas both parsers read the wrong field: on a line with a single comma, `std::stoi` reads field 1 and `std::stod` reads field 0 (`LineWithOneComma`). With three to five commas the board-id text is still field 3 (`BoardOfThreeCommas`), and only `std::stod` reads an earlier field.

On the publisher side, the loop resets the cursor to `begin()` when it is at `end()` but never advances it. Every send therefore publishes the board's earliest reading (`Step`, `SendTwice`).

## Model

| member | source | states |
|---|---|---|
| Text.ToU32 | mqtt-server.cpp:60 | The `int` to `uint32_t` conversion: a value already in range is kept, and a negative `int` becomes value + 2^32. |
| Text.ToU64 | mqtt-server.cpp:77 | The `time_t` to `uint64_t` conversion: a value in range is kept, and a negative one (such as the -1 of a failed `mktime`) becomes value + 2^64. |
| Text.Inc | mqtt-server.cpp:56 | `firstPos + 1` in `size_t`: one more, except that `npos + 1` wraps to 0. `IncIsSizeTAdd` ties it to the 64-bit cast of the sum. |
| Text.IncIsSizeTAdd | mqtt-server.cpp:56 | The model's increment equals `pos + 1` reduced modulo 2^64, the `size_t` addition of the source, for every position up to `npos`. |
| Text.Find | mqtt-server.cpp:57 | `find(',', pos)` gives the first position at or after `pos` holding the character. It gives `npos` exactly when no such position exists, including when `pos` is past the end. |
| Text.Substr | mqtt-server.cpp:60 | `substr(pos, count)` is a prefix of the rest of the string from `pos`, no longer than `count`. It is exactly `count` long, or else the whole rest, as with an overlong count or `npos`. |
| Text.SplitFind | mqtt-server.cpp:54-58 | A comma search from the start of a field ends exactly that CSV field and leaves the remaining fields. When the search gives `npos`, the rest of the line is the last field. |
| Text.Stoi | mqtt-server.cpp:60 | `std::stoi` yields only values in the range of `int`. It throws on text that is empty or all white space. |
| Text.StoiStopsAtComma | mqtt-server.cpp:60 | Whatever follows a comma cannot change what `std::stoi` reads from the text before it, or whether it throws. |
| Text.NatToString | mqtt-server.cpp:119 | `std::to_string` of an unsigned id is a non-empty string of decimal digits. It has a leading zero only for 0, and is a single digit exactly for values below 10. |
| Text.DecValueOfNatToString | mqtt-server.cpp:119 | Reading the digits `std::to_string` writes gives the id back. |
| Text.StoiOfNatToString | mqtt-server.cpp:119 | `std::stoi` reads back what `std::to_string` wrote, for every value an `int` holds. |
| Loader.Scan | mqtt-server.cpp:54-58 | Rounds of `lastPos = firstPos + 1; firstPos = find(',', lastPos)` keep `firstPos` at `npos` or inside the line, and `lastPos` at most the line's length. |
| Loader.ScanFields | mqtt-server.cpp:54-58 | The three-round `for` loop ends in the state `Scan` gives for three rounds, with `lastPos` a valid `substr` start. |
| Loader.TextsOf | mqtt-server.cpp:46-68 | The three texts the parsers receive: the time text is the line up to its first comma, and the board and temperature texts are `substr(lastPos, firstPos)` after each three-round scan, with the `npos` wrap. `FieldsOfLongLine`, `LineWithoutComma` and `LineWithOneComma` state what they are on long lines, lines without commas and lines with one comma. |
| Loader.LineWithoutComma | mqtt-server.cpp:54-66 | On a line without commas every search gives `npos` and `npos + 1` wraps to 0. The time, board-id and temperature parsers all receive the whole line. |
| Loader.LineWithOneComma | mqtt-server.cpp:54-66 | On a line with a single comma the wrap makes the scans alternate between its two fields: the time text is field 0, the board-id text is field 1, and the temperature text is field 0 again. |
| Loader.BoardOfThreeCommas | mqtt-server.cpp:54-60 | On a line with at least three commas the board-id text is field 3, followed by its comma unless field 3 is the last field. |
| Loader.FieldsOfLongLine | mqtt-server.cpp:46-68 | On a line with at least seven fields, the time text is field 0. The board-id text is field 3 followed by its comma. The temperature text is field 6, followed by a comma exactly when more fields follow. |
| Loader.ParseOfLongLine | mqtt-server.cpp:46-68 | On such a line, the parse fails with the board-id error exactly when `std::stoi` rejects field 3. It fails with the temperature error exactly when field 3 is read and `std::stod` rejects the temperature text. Otherwise the board id is field 3's value as `uint32_t`, the timestamp is field 0's time as `uint64_t`, and the temperature is what `std::stod` reads. |
| Loader.ParseLine | mqtt-server.cpp:46-68 | One non-empty line's parse: its texts (`TextsOf`) handed to the parsers (`ParseTexts`). `ParseOfLongLine` states the result on a line with at least seven fields. |
| Loader.ParseTexts | mqtt-server.cpp:47-68 | The time through `get_time`/`mktime` and the `uint64_t` cast, then `std::stoi` on the board text and the `uint32_t` cast, then `std::stod` on the temperature text, with the first throw ending the line. `ParseOfFields` and `ParseOfLongLine` state which error or row results. |
| Loader.ParseOfFields | mqtt-server.cpp:60 | Given texts that start with the time field and with the board field plus its comma, the board-id rejection, the board id and the timestamp depend only on those fields. The temperature error and value depend on the temperature text alone. |
| Loader.EventOf | mqtt-server.cpp:43-44 | A line is skipped exactly when it is empty. |
| Loader.ReadLine | mqtt-server.cpp:43-68 | One pass of the loop body (empty check, field scans, parsers in source order, board id before temperature) produces exactly the line's event. |
| Loader.Apply | mqtt-server.cpp:69-85 | Storing a row adds its board id to the keys. A new board gets the row's id and a table holding only this record; an existing board keeps its id. The row's timestamp maps to `{boardId, ts, tempAvg}`, whether inserted or overwritten. Every other record and every other board is unchanged. |
| Loader.LoadStep | mqtt-server.cpp:40-68 | One round of the read loop: after a throw nothing changes, an empty line changes nothing, a failed parse records the error, and a parsed row is stored (`Apply`). |
| Loader.Load | mqtt-server.cpp:40-86 | The read loop over the lines after the header, as a left fold of `LoadStep`. `FillData` is proved to compute it; `LoadKeepsWellFormed`, `FailureEndsLoad`, `SkippedLineChangesNothing`, `LastLineWins`, `UntouchedRecord`, `UntouchedBoard` and `LoadNeverShrinks` state its properties. |
| Loader.ApplyKeepsWellFormed | mqtt-server.cpp:71-83 | Storing a row keeps the invariant: every board's id is its key, and every record's timestamp and board id are its keys. |
| Loader.LoadKeepsWellFormed | mqtt-server.cpp:40-86 | Every load from a well-formed table, whatever its lines, keeps that invariant. |
| Loader.LoadKeepsBoardsNonEmpty | mqtt-server.cpp:69-80 | A board is only created to store a record, so a loaded table never holds a board without readings. |
| Loader.SkippedLineChangesNothing | mqtt-server.cpp:43-44 | An empty line anywhere in the file leaves the result of the load as if it were absent. |
| Loader.FailureEndsLoad | mqtt-server.cpp:60-68 | Once `std::stoi` or `std::stod` has thrown, no later line changes the table or the error. |
| Loader.LoadNeverShrinks | mqtt-server.cpp:69-85 | No load removes a board, or a timestamp from any board. |
| Loader.LastLineWins | mqtt-server.cpp:77-85 | The record at a (board, timestamp) pair is that of the last line storing under it. |
| Loader.UntouchedRecord | mqtt-server.cpp:69-85 | A record that no line stores over is still present and unchanged. |
| Loader.UntouchedBoard | mqtt-server.cpp:69-74 | A board id no line stores under is neither created nor changed. |
| Loader.SensorStore.constructor | mqtt-server.cpp:33 | `board_table` starts empty, and so well-formed. |
| Loader.SensorStore.Upsert | mqtt-server.cpp:69-85 | Find-or-create of the board, then insert or field-by-field overwrite of the record, leaves `board_table` equal to `Apply` of the old table and the row. |
| Loader.SensorStore.FillData | mqtt-server.cpp:35-87 | An empty file changes nothing. Otherwise the header is dropped, and the table and error are those of `Load` over the events of the remaining lines, starting from the old table. The invariant is kept. |
| Publishing.Topic | mqtt-server.cpp:119-121 | `"sensor/"` followed by `std::to_string` of the board id. `TopicNamesBoard` and `TopicsDistinct` state that it names the board and only that board. |
| Publishing.TopicNamesBoard | mqtt-server.cpp:119-121 | The topic is `"sensor/"` followed by decimal digits without leading zeros that read back as the board id. |
| Publishing.TopicsDistinct | mqtt-server.cpp:119-121 | Two boards with different ids never publish on the same topic. |
| Publishing.Least | mqtt-server.cpp:127 | `begin()` of a non-empty `std::map` is its least key. |
| Publishing.SortedKeys | mqtt-server.cpp:127-128 | A `std::map`'s iteration order from `begin()` to `end()` lists each key once, strictly ascending. |
| Publishing.Publisher.constructor | mqtt-server.cpp:117-121 | A new publisher has topic `"sensor/"` plus `std::to_string` of the board id, is not sending, and has its cursor at `begin()`. |
| Publishing.Publisher.Step | mqtt-server.cpp:130-146 | A round while a send is under way publishes nothing and leaves the cursor. Otherwise the round resets the cursor to `begin()` if it is at `end()`, sets `sending`, and publishes the board's earliest record on the topic with QoS 1. A send always leaves the cursor at `begin()`, because nothing advances it. |
| Publishing.Publisher.OnDisconnect | mqtt-server.cpp:105 | The callback clears `sending`, so the next round starts a new send. The cursor is unchanged. |
| Publishing.SendTwice | mqtt-server.cpp:126-150 | Two sends with a disconnect between them publish the same message: the board's earliest reading, on the board's topic. |

## Left out

- `publisher_connection` declares two `std::promise` members, `connect_promise` and `subscribe_promise` (mqtt-server.cpp:94-95), which nothing sets or reads. Neither source file has a command dispatcher, persistence queue or worker.
- `mqtt-client.cpp`: a read loop that discards its input, and a thin wrapper over the library's `connect`.
- The mosquittopp calls `connect`, `publish`, `loop`, `disconnect`, `tls_set`, `lib_init` and `lib_cleanup`. They are foreign network and TLS code. A publish is recorded as a `Publish` value returned by `Step`.
- `on_publish` (it only prints and calls `disconnect`) and `on_connect` (it only prints). Both are I/O.
- The `"Disconnected..."` print of `on_disconnect`. `OnDisconnect` keeps only its change to `sending`.
- The random sleeps and `sleep_for` delays of `run`. They are nondeterminism and timing only.
- The endless `while (true)` of `run`. It is modelled as single rounds (`Step`). `data_ptr`, a local of `run`, is held as the field `cursor`.
- `main`: the argument check, the size print, and the one-thread-per-board fan-out and joins. These are I/O and concurrency.
- The file itself (`ifstream`, `getline`, `eof`). The input is the sequence of lines `getline` returns. A stream that fails without reaching end of file, such as a missing file, loops forever in the source; it is not modelled.
- `std::get_time`/`std::mktime` and `std::stod`. These are calendar and floating-point library code, so they are parameters of the loader (`TimeParser`, `TempParser`). The temperature is a `real` that is only stored, and the `double` rounding is not modelled. `std::stod` also returns NaN or an infinity without throwing (for texts such as `nan` and `inf`); no `real` holds those, so `TempParser` maps them to some `real`, which is harmless because the value is only stored.
- The exception that ends `fill_data` also ends the program, uncaught. The model returns it as the error of `FillData`, with the rows read before it kept.
- The binary payload layout of a publish (`sizeof(data)` bytes of the struct). A publish carries the record value.
- Publishing.Publisher.Step: requires a non-empty table. The source dereferences `end()` there, which is undefined behaviour; `LoadKeepsBoardsNonEmpty` shows no loaded board is empty.
- Text.Substr: requires `pos` at most the length. A larger `pos` throws `out_of_range`, and the loader never passes one (`Scan`, `ScanFields`).
- Text.Find: searches only in lines shorter than `npos` (`Line`), since every `std::string` is.

=== FILE: loader.dfy ===
/**
 * The sensor-data loader of the publishing server: it reads a CSV file of
 * readings, line by line, into the two-level table `board_table`
 * (board id -> board, and in each board timestamp -> reading).
 *
 * The file is given as the sequence of lines std::getline returns. The
 * calendar conversion of the timestamp text (std::get_time followed by
 * std::mktime) and the floating-point parse of the temperature
 * (std::stod) are parameters: they are library code whose results the
 * loader only stores.
 */
module Loader {
  import opened Wrappers
  import opened Text

  /** One reading of a board (struct data). */
  datatype Data = Data(boardId: u32, timestamp: u64, tempAvg: real)

  /** One board (struct board): its id and its readings keyed by timestamp. */
  datatype Board = Board(boardId: u32, dataTable: map<u64, Data>)

  /** The type of `board_table`. */
  type BoardTable = map<u32, Board>

  /** The values one CSV line yields. */
  datatype Row = Row(boardId: u32, timestamp: u64, tempAvg: real)

  /** The exceptions that end a load: std::stoi or std::stod could not read its field. */
  datatype ParseError = BadBoardId | BadTemperature

  /**
   * get_time then mktime: the time_t mktime gives for the fields get_time
   * filled in from the timestamp text (-1 only when mktime itself fails).
   */
  type TimeParser = string -> int

  /** std::stod: the leading number of the text, None where it throws. */
  type TempParser = string -> Option<real>

  /** The texts the loader hands to its three parsers. */
  datatype FieldTexts = FieldTexts(time: string, board: string, temp: string)

  /** The record stored for a row, whether inserted or overwritten. */
  function RecordOf(row: Row): Data
  {
    Data(row.boardId, row.timestamp, row.tempAvg)
  }

  /**
   * The state (lastPos, firstPos) after n rounds of
   * `lastPos = firstPos + 1; firstPos = line.find(',', lastPos);`
   * with size_t arithmetic, so that npos + 1 is 0.
   */
  function Scan(line: Line, last: nat, first: nat, n: nat): (r: (nat, nat))
    requires first == NPOS || first < |line|
    ensures r.1 == NPOS || r.1 < |line|
    ensures n > 0 ==> r.0 <= |line|
    decreases n
  {
    if n == 0 then (last, first)
    else Scan(line, Inc(first), Find(line, ',', Inc(first)), n - 1)
  }

  /**
   * The texts the loader parses. The time is the text before the first
   * comma. The board id and the temperature are each read from
   * `line.substr(lastPos, firstPos)` after three comma scans, which passes
   * an end position as a length: the text starts at the field and may run
   * past its comma.
   */
  function TextsOf(line: Line): FieldTexts
  {
    var first0 := Find(line, ',', 0);
    var (last1, first1) := Scan(line, first0, first0, 3);
    var (last2, first2) := Scan(line, last1, first1, 3);
    FieldTexts(Substr(line, 0, first0), Substr(line, last1, first1), Substr(line, last2, first2))
  }

  /**
   * What one non-empty line yields: the row, or the exception std::stoi
   * (board id, read first) or std::stod (temperature) throws. The board id
   * is the int std::stoi reads, converted to uint32_t; the timestamp is the
   * time_t mktime gives, converted to uint64_t.
   */
  function ParseLine(line: Line, parseTime: TimeParser, parseTemp: TempParser): Result<Row, ParseError>
  {
    ParseTexts(TextsOf(line), parseTime, parseTemp)
  }

  /** The parsers applied to the three texts, board id first. */
  function ParseTexts(texts: FieldTexts, parseTime: TimeParser, parseTemp: TempParser): Result<Row, ParseError>
  {
    var timestamp := ToU64(parseTime(texts.time));
    match Stoi(texts.board)
    case None => Err(BadBoardId)
    case Some(id) =>
      match parseTemp(texts.temp)
      case None => Err(BadTemperature)
      case Some(temp) => Ok(Row(ToU32(id), timestamp, temp))
  }

  /**
   * The table after a row is stored: its board is created when absent (and
   * kept, id included, when present), and its record at the row's
   * timestamp is inserted or overwritten. Nothing else changes.
   */
  function Apply(t: BoardTable, row: Row): (r: BoardTable)
    ensures r.Keys == t.Keys + {row.boardId}
    ensures r[row.boardId].boardId == if row.boardId in t then t[row.boardId].boardId else row.boardId
    ensures row.boardId !in t ==> r[row.boardId].dataTable == map[row.timestamp := RecordOf(row)]
    ensures row.boardId in t ==>
      r[row.boardId].dataTable.Keys == t[row.boardId].dataTable.Keys + {row.timestamp}
    ensures row.timestamp in r[row.boardId].dataTable
    ensures r[row.boardId].dataTable[row.timestamp] == RecordOf(row)
    ensures forall ts :: row.boardId in t && ts in t[row.boardId].dataTable && ts != row.timestamp ==>
      r[row.boardId].dataTable[ts] == t[row.boardId].dataTable[ts]
    ensures forall b :: b in t && b != row.boardId ==> r[b] == t[b]
  {
    var board := if row.boardId in t then t[row.boardId] else Board(row.boardId, map[]);
    t[row.boardId := board.(dataTable := board.dataTable[row.timestamp := RecordOf(row)])]
  }

  /** What one line after the header does to the table. */
  datatype LineEvent = Skipped | Stored(row: Row) | Failed(error: ParseError)

  /** An empty line is skipped; any other is parsed into a row or fails. */
  function EventOf(line: Line, parseTime: TimeParser, parseTemp: TempParser): (e: LineEvent)
    ensures e == Skipped <==> |line| == 0
  {
    if |line| == 0 then Skipped
    else match ParseLine(line, parseTime, parseTemp)
      case Err(err) => Failed(err)
      case Ok(row) => Stored(row)
  }

  /** The events of a sequence of lines, in order. */
  function EventsOf(lines: seq<Line>, parseTime: TimeParser, parseTemp: TempParser): seq<LineEvent>
  {
    seq(|lines|, i requires 0 <= i < |lines| => EventOf(lines[i], parseTime, parseTemp))
  }

  /** Where a load stands: the table so far and, once a parser has thrown, its error. */
  datatype Loaded = Loaded(table: BoardTable, error: Option<ParseError>)

  /** One round of the read loop; nothing is read after an error. */
  function LoadStep(prev: Loaded, e: LineEvent): Loaded
  {
    if prev.error.Some? then prev
    else match e
      case Skipped => prev
      case Failed(err) => Loaded(prev.table, Some(err))
      case Stored(row) => Loaded(Apply(prev.table, row), None)
  }

  /** The events of the lines after the header, applied in order to the table t. */
  function Load(t: BoardTable, es: seq<LineEvent>): Loaded
  {
    if es == [] then Loaded(t, None)
    else LoadStep(Load(t, es[..|es| - 1]), es[|es| - 1])
  }

  /** An event stores a record under board b and timestamp ts. */
  predicate Writes(e: LineEvent, b: u32, ts: u64)
  {
    e.Stored? && e.row.boardId == b && e.row.timestamp == ts
  }

  /**
   * The table's invariant: each board's id is its key, and each record's
   * timestamp is its key and its board id that of the board holding it.
   */
  predicate WellFormed(t: BoardTable)
  {
    forall b :: b in t ==> t[b].boardId == b && RecordsOf(t[b].dataTable, b)
  }

  predicate RecordsOf(m: map<u64, Data>, b: u32)
  {
    forall ts :: ts in m ==> m[ts].timestamp == ts && m[ts].boardId == b
  }

  // ---------------------------------------------------------------------
  // Field extraction

  /**
   * On a line with at least six commas the loader reads the fields the CSV
   * layout intends: the time text is field 0; the board-id text is field 3
   * followed by its comma; the temperature text is field 6, followed by a
   * comma when the line has more fields.
   */
  lemma FieldsOfLongLine(line: Line)
    requires |Split(line)| >= 7
    ensures var t := TextsOf(line); var f := Split(line);
      && t.time == f[0]
      && |t.board| > |f[3]| && t.board[..|f[3]|] == f[3] && t.board[|f[3]|] == ','
      && |t.temp| >= |f[6]| && t.temp[..|f[6]|] == f[6]
      && (|f| == 7 <==> t.temp == f[6])
      && (|f| > 7 ==> |t.temp| > |f[6]| && t.temp[|f[6]|] == ',')
  {
    var f := Split(line);
    var p0, c2, c3 := HeadFields(line);
    var c5, c6 := TailFields(line, c2 + 1, c3, f[4..]);
    assert f[4..][2..][0] == f[6] && (|f[4..][2..]| == 1 <==> |f| == 7);
    TextsAt(line, p0, c2, c3, c5, c6);
    TextsOfFields(line, TextsOf(line), f, p0, c2, c3, c5, c6);
  }

  /** The three texts cut at the positions the searches found hold fields 0, 3 and 6. */
  lemma TextsOfFields(line: Line, t: FieldTexts, f: seq<string>, p0: nat, c2: nat, c3: nat, c5: nat, c6: nat)
    requires |f| >= 7 && p0 < |line| && line[..p0] == f[0]
    requires c2 < c3 < |line| && line[c3] == ',' && line[c2 + 1..c3] == f[3]
    requires c5 < |line| && (c6 == NPOS <==> |f| == 7)
    requires c6 == NPOS ==> line[c5 + 1..] == f[6]
    requires c6 != NPOS ==> c5 < c6 < |line| && line[c6] == ',' && line[c5 + 1..c6] == f[6]
    requires t == FieldTexts(Substr(line, 0, p0), Substr(line, c2 + 1, c3), Substr(line, c5 + 1, c6))
    ensures && t.time == f[0]
      && |t.board| > |f[3]| && t.board[..|f[3]|] == f[3] && t.board[|f[3]|] == ','
      && |t.temp| >= |f[6]| && t.temp[..|f[6]|] == f[6]
      && (|f| == 7 <==> t.temp == f[6])
      && (|f| > 7 ==> |t.temp| > |f[6]| && t.temp[|f[6]|] == ',')
  {
    BoardText(line, c2 + 1, c3, t.board);
    TempText(line, c5 + 1, c6, f[6], |f| == 7, t.temp);
  }

  /** Where the loader's first two searches stop on a line with at least six commas. */
  lemma HeadFields(line: Line) returns (p0: nat, c2: nat, c3: nat)
    requires |Split(line)| >= 7
    ensures p0 < |line| && p0 == Find(line, ',', 0) && line[..p0] == Split(line)[0]
    ensures c2 < |line| && Scan(line, p0, p0, 3) == (c2 + 1, c3)
    ensures c2 < c3 < |line| && line[c3] == ',' && line[c2 + 1..c3] == Split(line)[3]
    ensures Split(line[c3 + 1..]) == Split(line)[4..]
  {
    var f := Split(line);
    p0 := FieldAt(line, 0, f);
    assert line[..p0] == line[0..p0];
    c2, c3 := BoardField(line, p0, f[1..]);
    assert f[1..][2] == f[3] && f[1..][3..] == f[4..];
  }

  /** Three rounds of the scan from the comma at p, and the field they stop at. */
  lemma BoardField(line: Line, p: nat, fs: seq<string>) returns (c2: nat, c3: nat)
    requires p < |line| && Split(line[p + 1..]) == fs && |fs| >= 4
    ensures c2 < |line| && Scan(line, p, p, 3) == (c2 + 1, c3)
    ensures c2 < c3 < |line| && line[c3] == ',' && line[c2 + 1..c3] == fs[2]
    ensures Split(line[c3 + 1..]) == fs[3..]
  {
    c2 := ScanThree(line, p, p, fs);
    c3 := FieldAt(line, c2 + 1, fs[2..]);
    assert fs[2..][1..] == fs[3..];
  }

  /** The third search, from the comma at p: where it stops, and the field it starts. */
  lemma TailFields(line: Line, last: nat, p: nat, fs: seq<string>) returns (c5: nat, c6: nat)
    requires p < |line| && Split(line[p + 1..]) == fs && |fs| >= 3
    ensures c5 < |line| && c6 == Find(line, ',', c5 + 1) && Scan(line, last, p, 3) == (c5 + 1, c6)
    ensures c6 == NPOS <==> |fs[2..]| == 1
    ensures c6 == NPOS ==> line[c5 + 1..] == fs[2..][0]
    ensures c6 != NPOS ==> c5 < c6 < |line| && line[c6] == ',' && line[c5 + 1..c6] == fs[2..][0]
  {
    c5 := ScanThree(line, last, p, fs);
    c6 := LastField(line, c5 + 1, fs[2..]);
  }

  /** The field starting at `from`: the search ends it at a comma unless it is the last one. */
  lemma LastField(line: Line, from: nat, fs: seq<string>) returns (q: nat)
    requires from <= |line| && Split(line[from..]) == fs
    ensures q == Find(line, ',', from)
    ensures q == NPOS <==> |fs| == 1
    ensures q == NPOS ==> line[from..] == fs[0]
    ensures q != NPOS ==> from <= q < |line| && line[q] == ',' && line[from..q] == fs[0]
  {
    SplitFind(line, from);
    q := Find(line, ',', from);
  }

  /**
   * On a line with at least three commas the first scan still reaches field
   * 3: the board-id text is field 3, followed by a comma unless it is the
   * last field. The temperature scan is what runs past the end on shorter lines.
   */
  lemma BoardOfThreeCommas(line: Line)
    requires |Split(line)| >= 4
    ensures var t := TextsOf(line).board; var f := Split(line);
      && |t| >= |f[3]| && t[..|f[3]|] == f[3]
      && (|f| == 4 <==> t == f[3])
      && (|f| > 4 ==> |t| > |f[3]| && t[|f[3]|] == ',')
  {
    var f := Split(line);
    var p0 := FieldAt(line, 0, f);
    var c2 := ScanThree(line, p0, p0, f[1..]);
    assert f[1..][2..] == f[3..];
    var c3 := LastField(line, c2 + 1, f[3..]);
    BoardAfterScan(line, p0, c2, c3, f[3], |f| == 4);
  }

  /** The board-id text when the first scan stops at the start of a given field. */
  lemma BoardAfterScan(line: Line, p0: nat, c2: nat, c3: nat, field: string, isLast: bool)
    requires p0 < |line| && p0 == Find(line, ',', 0)
    requires c2 < |line| && Scan(line, p0, p0, 3) == (c2 + 1, c3)
    requires isLast <==> c3 == NPOS
    requires isLast ==> line[c2 + 1..] == field
    requires !isLast ==> c2 + 1 <= c3 < |line| && line[c3] == ',' && line[c2 + 1..c3] == field
    ensures var t := TextsOf(line).board;
      && |t| >= |field| && t[..|field|] == field
      && (isLast <==> t == field)
      && (!isLast ==> |t| > |field| && t[|field|] == ',')
  {
    TempText(line, c2 + 1, c3, field, isLast, Substr(line, c2 + 1, c3));
    BoardTextAt(line, p0, c2, c3);
  }

  /** The board-id text in terms of the commas the first searches find. */
  lemma BoardTextAt(line: Line, p0: nat, c2: nat, c3: nat)
    requires p0 < |line| && p0 == Find(line, ',', 0)
    requires c2 < |line| && Scan(line, p0, p0, 3) == (c2 + 1, c3)
    ensures TextsOf(line).board == Substr(line, c2 + 1, c3)
  {
  }

  /** TextsOf in terms of the commas its searches find. */
  lemma TextsAt(line: Line, p0: nat, c2: nat, c3: nat, c5: nat, c6: nat)
    requires p0 < |line| && p0 == Find(line, ',', 0)
    requires c2 < |line| && Scan(line, p0, p0, 3) == (c2 + 1, c3)
    requires c5 < |line| && Scan(line, c2 + 1, c3, 3) == (c5 + 1, c6)
    ensures TextsOf(line) == FieldTexts(Substr(line, 0, p0), Substr(line, c2 + 1, c3), Substr(line, c5 + 1, c6))
  {
    BoardTextAt(line, p0, c2, c3);
    TempTextAt(line, p0, c2, c3, c5, c6);
  }

  /** The temperature text in terms of the commas the searches find. */
  lemma TempTextAt(line: Line, p0: nat, c2: nat, c3: nat, c5: nat, c6: nat)
    requires p0 < |line| && p0 == Find(line, ',', 0)
    requires c2 < |line| && Scan(line, p0, p0, 3) == (c2 + 1, c3)
    requires c5 < |line| && Scan(line, c2 + 1, c3, 3) == (c5 + 1, c6)
    ensures TextsOf(line).temp == Substr(line, c5 + 1, c6)
  {
  }

  /** The field starting at `from` ends at the next comma, when more fields follow it. */
  lemma FieldAt(line: Line, from: nat, fs: seq<string>) returns (q: nat)
    requires from <= |line| && Split(line[from..]) == fs && |fs| >= 2
    ensures q == Find(line, ',', from)
    ensures from <= q < |line| && line[q] == ',' && fs[0] == line[from..q] && Split(line[q + 1..]) == fs[1..]
  {
    SplitFind(line, from);
    q := Find(line, ',', from);
  }

  /** The board-id text: the field from lastPos to the comma at firstPos, then that comma and more. */
  lemma BoardText(line: Line, last: nat, first: nat, text: string)
    requires 0 < last <= first < |line| && line[first] == ','
    requires text == Substr(line, last, first)
    ensures |text| > first - last && text[..first - last] == line[last..first] && text[first - last] == ','
  {
  }

  /**
   * The temperature text: the last field when no comma follows it (the
   * search gave npos), and otherwise the field, its comma and more.
   */
  lemma TempText(line: Line, last: nat, first: nat, field: string, isLast: bool, text: string)
    requires 0 < last <= |line| && text == Substr(line, last, first)
    requires isLast <==> first == NPOS
    requires isLast ==> line[last..] == field
    requires !isLast ==> last <= first < |line| && line[first] == ',' && line[last..first] == field
    ensures |text| >= |field| && text[..|field|] == field
    ensures isLast <==> text == field
    ensures !isLast ==> |text| > |field| && text[|field|] == ','
  {
  }

  /** Three rounds of the scan from a comma at p end at the start of the third field after it. */
  lemma ScanThree(line: Line, last: nat, p: nat, fs: seq<string>) returns (q: nat)
    requires p < |line| && Split(line[p + 1..]) == fs && |fs| >= 3
    ensures q < |line| && Scan(line, last, p, 3) == (q + 1, Find(line, ',', q + 1))
    ensures Split(line[q + 1..]) == fs[2..]
  {
    var q1 := FieldAt(line, p + 1, fs);
    q := FieldAt(line, q1 + 1, fs[1..]);
    assert fs[1..][1..] == fs[2..];
    ScanPositions(line, last, p, q1, q);
  }

  /** Three rounds of the scan, in terms of the two commas it passes. */
  lemma ScanPositions(line: Line, last: nat, p: nat, q1: nat, q2: nat)
    requires p < q1 < q2 < |line|
    requires q1 == Find(line, ',', p + 1) && q2 == Find(line, ',', q1 + 1)
    ensures Scan(line, last, p, 3) == (q2 + 1, Find(line, ',', q2 + 1))
  {
    assert Scan(line, last, p, 3) == Scan(line, p + 1, q1, 2);
    assert Scan(line, p + 1, q1, 2) == Scan(line, q1 + 1, q2, 1);
  }

  /**
   * On a line with at least six commas, the board id is what std::stoi
   * reads from field 3 alone and the timestamp is that of field 0: the
   * overlong substring does no harm, because std::stoi stops at the comma.
   */
  lemma ParseOfLongLine(line: Line, parseTime: TimeParser, parseTemp: TempParser)
    requires |Split(line)| >= 7
    ensures var f := Split(line); var r := ParseLine(line, parseTime, parseTemp);
      && (Stoi(f[3]).None? <==> r == Err(BadBoardId))
      && (r.Ok? ==> r.value.boardId == ToU32(Stoi(f[3]).value))
      && (r.Ok? ==> r.value.timestamp == ToU64(parseTime(f[0])))
      && (r == Err(BadTemperature) <==> Stoi(f[3]).Some? && parseTemp(TextsOf(line).temp).None?)
      && (r.Ok? ==> r.value.tempAvg == parseTemp(TextsOf(line).temp).value)
  {
    var f := Split(line);
    FieldsOfLongLine(line);
    ParseOfFields(TextsOf(line), f[0], f[3], parseTime, parseTemp);
  }

  /** The parsers read the time from field 0 and the board id from field 3 and its comma. */
  lemma ParseOfFields(texts: FieldTexts, time: string, board: string, parseTime: TimeParser, parseTemp: TempParser)
    requires texts.time == time
    requires |texts.board| > |board| && texts.board[..|board|] == board && texts.board[|board|] == ','
    ensures var r := ParseTexts(texts, parseTime, parseTemp);
      && (Stoi(board).None? <==> r == Err(BadBoardId))
      && (r.Ok? ==> r.value.boardId == ToU32(Stoi(board).value))
      && (r.Ok? ==> r.value.timestamp == ToU64(parseTime(time)))
      && (r == Err(BadTemperature) <==> Stoi(board).Some? && parseTemp(texts.temp).None?)
      && (r.Ok? ==> r.value.tempAvg == parseTemp(texts.temp).value)
  {
    var rest := texts.board[|board| + 1..];
    assert texts.board == board + [','] + rest;
    StoiStopsAtComma(board, rest);
    ParseOfBoardId(texts, Stoi(board), parseTime, parseTemp);
  }

  /**
   * The parse fails on the board id exactly when std::stoi does, and otherwise
   * on the temperature exactly when std::stod does; a row keeps both values.
   */
  lemma ParseOfBoardId(texts: FieldTexts, id: Option<int>, parseTime: TimeParser, parseTemp: TempParser)
    requires Stoi(texts.board) == id
    ensures var r := ParseTexts(texts, parseTime, parseTemp);
      && (id.None? <==> r == Err(BadBoardId))
      && (r.Ok? ==> r.value.boardId == ToU32(id.value))
      && (r.Ok? ==> r.value.timestamp == ToU64(parseTime(texts.time)))
      && (r == Err(BadTemperature) <==> id.Some? && parseTemp(texts.temp).None?)
      && (r.Ok? ==> r.value.tempAvg == parseTemp(texts.temp).value)
  {
  }

  /**
   * A line with no comma at all: every search gives npos, npos + 1 wraps
   * to 0, and all three parsers are handed the whole line.
   */
  lemma LineWithoutComma(line: Line)
    requires ',' !in line
    ensures TextsOf(line) == FieldTexts(line, line, line)
  {
  }

  /**
   * A line with a single comma, at p: the second search gives npos, the
   * wrap restarts the scan at the head of the line, and the three rounds
   * alternate between the two fields. std::stoi is handed field 1 and
   * std::stod field 0 again.
   */
  lemma LineWithOneComma(line: Line, p: nat)
    requires p < |line| && line[p] == ','
    requires forall j :: 0 <= j < |line| && j != p ==> line[j] != ','
    ensures TextsOf(line) == FieldTexts(line[..p], line[p + 1..], line[..p])
  {
  }

  // ---------------------------------------------------------------------
  // Loading

  /** After a parser has thrown, no later line changes anything. */
  lemma {:induction false} FailureEndsLoad(t: BoardTable, es: seq<LineEvent>, k: nat)
    requires k <= |es|
    requires Load(t, es[..k]).error.Some?
    ensures Load(t, es) == Load(t, es[..k])
    decreases |es|
  {
    if k < |es| {
      var init := es[..|es| - 1];
      assert init[..k] == es[..k];
      FailureEndsLoad(t, init, k);
    } else {
      assert es[..k] == es;
    }
  }

  /** A skipped (empty) line anywhere after the header changes nothing. */
  lemma {:induction false} SkippedLineChangesNothing(t: BoardTable, before: seq<LineEvent>, after: seq<LineEvent>)
    ensures Load(t, before + [Skipped] + after) == Load(t, before + after)
    decreases |after|
  {
    var with := before + [Skipped] + after;
    var without := before + after;
    if after == [] {
      assert with[..|with| - 1] == before;
      assert without == before;
    } else {
      var init := after[..|after| - 1];
      assert with[..|with| - 1] == before + [Skipped] + init;
      assert without[..|without| - 1] == before + init;
      SkippedLineChangesNothing(t, before, init);
    }
  }

  /** Storing a row keeps the table's invariant. */
  lemma ApplyKeepsWellFormed(t: BoardTable, row: Row)
    requires WellFormed(t)
    ensures WellFormed(Apply(t, row))
  {
    var r := Apply(t, row);
    var b := row.boardId;
    forall ts | ts in r[b].dataTable
      ensures r[b].dataTable[ts].timestamp == ts && r[b].dataTable[ts].boardId == b
    {
      if ts != row.timestamp {
        assert b in t && ts in t[b].dataTable;
      }
    }
  }

  /** Loading one more line is one more round of the read loop. */
  lemma LoadPrefix(t: BoardTable, es: seq<LineEvent>, i: nat)
    requires i < |es|
    ensures Load(t, es[..i + 1]) == LoadStep(Load(t, es[..i]), es[i])
  {
    assert es[..i + 1][..i] == es[..i];
  }

  /** A loop that stops at the end of the events or at an error has loaded them all. */
  lemma LoadDone(t: BoardTable, es: seq<LineEvent>, i: nat, r: Loaded)
    requires i <= |es| && Load(t, es[..i]) == r
    requires i == |es| || r.error.Some?
    ensures Load(t, es) == r
  {
    if r.error.Some? {
      FailureEndsLoad(t, es, i);
    } else {
      assert es[..i] == es;
    }
  }

  /** Every load keeps the table's invariant. */
  lemma {:induction false} LoadKeepsWellFormed(t: BoardTable, es: seq<LineEvent>)
    requires WellFormed(t)
    ensures WellFormed(Load(t, es).table)
    decreases |es|
  {
    if es != [] {
      LoadKeepsWellFormed(t, es[..|es| - 1]);
      var prev := Load(t, es[..|es| - 1]);
      var e := es[|es| - 1];
      if prev.error.None? && e.Stored? {
        ApplyKeepsWellFormed(prev.table, e.row);
      }
    }
  }

  /** Every board holds at least one reading: a board is only created to store one. */
  predicate NoEmptyBoard(t: BoardTable)
  {
    forall b :: b in t ==> |t[b].dataTable| > 0
  }

  /** Storing a row leaves no board empty: the row's board holds at least the row's record. */
  lemma ApplyKeepsBoardsNonEmpty(t: BoardTable, row: Row)
    requires NoEmptyBoard(t)
    ensures NoEmptyBoard(Apply(t, row))
  {
    var r := Apply(t, row);
    assert row.timestamp in r[row.boardId].dataTable;
  }

  /** A load that starts without empty boards creates none, so the table never holds an empty board. */
  lemma {:induction false} LoadKeepsBoardsNonEmpty(t: BoardTable, es: seq<LineEvent>)
    requires NoEmptyBoard(t)
    ensures NoEmptyBoard(Load(t, es).table)
    decreases |es|
  {
    if es != [] {
      LoadKeepsBoardsNonEmpty(t, es[..|es| - 1]);
      var prev := Load(t, es[..|es| - 1]);
      var e := es[|es| - 1];
      if prev.error.None? && e.Stored? {
        ApplyKeepsBoardsNonEmpty(prev.table, e.row);
      }
    }
  }

  /** No load removes a board, or a timestamp from a board. */
  lemma {:induction false} LoadNeverShrinks(t: BoardTable, es: seq<LineEvent>)
    ensures var r := Load(t, es).table;
      && t.Keys <= r.Keys
      && forall b :: b in t ==> t[b].dataTable.Keys <= r[b].dataTable.Keys
    decreases |es|
  {
    if es != [] {
      LoadNeverShrinks(t, es[..|es| - 1]);
    }
  }

  /**
   * The last line that stores under a board and a timestamp decides the
   * record there, whether it inserted it or overwrote an earlier one.
   */
  lemma {:induction false} LastLineWins(t: BoardTable, es: seq<LineEvent>, k: nat)
    requires k < |es| && es[k].Stored?
    requires Load(t, es).error.None?
    requires forall j :: k < j < |es| ==> !Writes(es[j], es[k].row.boardId, es[k].row.timestamp)
    ensures var r := Load(t, es).table;
      && es[k].row.boardId in r && es[k].row.timestamp in r[es[k].row.boardId].dataTable
      && r[es[k].row.boardId].dataTable[es[k].row.timestamp] == RecordOf(es[k].row)
    decreases |es|
  {
    var init := es[..|es| - 1];
    assert Load(t, init).error.None?;
    if k < |es| - 1 {
      assert init[k] == es[k];
      forall j | k < j < |init| ensures init[j] == es[j] { }
      LastLineWins(t, init, k);
    }
  }

  /** A record that no line stores over is still there, unchanged. */
  lemma {:induction false} UntouchedRecord(t: BoardTable, es: seq<LineEvent>, b: u32, ts: u64)
    requires b in t && ts in t[b].dataTable
    requires forall j :: 0 <= j < |es| ==> !Writes(es[j], b, ts)
    ensures var r := Load(t, es).table;
      b in r && ts in r[b].dataTable && r[b].dataTable[ts] == t[b].dataTable[ts]
    decreases |es|
  {
    if es != [] {
      var init := es[..|es| - 1];
      forall j | 0 <= j < |init| ensures init[j] == es[j] { }
      UntouchedRecord(t, init, b, ts);
    }
  }

  /** A board that no line names is left as it was, and none is created for it. */
  lemma {:induction false} UntouchedBoard(t: BoardTable, es: seq<LineEvent>, b: u32)
    requires forall j :: 0 <= j < |es| ==> !(es[j].Stored? && es[j].row.boardId == b)
    ensures var r := Load(t, es).table;
      (b in r <==> b in t) && (b in t ==> r[b] == t[b])
    decreases |es|
  {
    if es != [] {
      var init := es[..|es| - 1];
      forall j | 0 <= j < |init| ensures init[j] == es[j] { }
      UntouchedBoard(t, init, b);
    }
  }

  // ---------------------------------------------------------------------
  // The loader as the server runs it

  /** The rounds of the field scan: one of the two three-step `for` loops. */
  method ScanFields(line: Line, last0: nat, first0: nat) returns (last: nat, first: nat)
    requires first0 == NPOS || first0 < |line|
    ensures (last, first) == Scan(line, last0, first0, 3)
    ensures last <= |line|
  {
    last, first := last0, first0;
    for i := 0 to 3
      invariant first == NPOS || first < |line|
      invariant i > 0 ==> last <= |line|
      invariant Scan(line, last, first, 3 - i) == Scan(line, last0, first0, 3)
    {
      last := Inc(first);
      first := Find(line, ',', last);
    }
  }

  /**
   * One line after the header: an empty one is skipped; otherwise its
   * fields are located and parsed, and a parser that throws fails it.
   */
  method ReadLine(line: Line, parseTime: TimeParser, parseTemp: TempParser) returns (e: LineEvent)
    ensures e == EventOf(line, parseTime, parseTemp)
  {
    if |line| == 0 {
      return Skipped;
    }
    var firstPos := Find(line, ',', 0);
    var timeText := Substr(line, 0, firstPos);
    var timestamp := ToU64(parseTime(timeText));
    var lastPos := firstPos;
    lastPos, firstPos := ScanFields(line, lastPos, firstPos);
    var boardId := Stoi(Substr(line, lastPos, firstPos));
    if boardId.None? {
      return Failed(BadBoardId);
    }
    lastPos, firstPos := ScanFields(line, lastPos, firstPos);
    var tempAvg := parseTemp(Substr(line, lastPos, firstPos));
    if tempAvg.None? {
      return Failed(BadTemperature);
    }
    e := Stored(Row(ToU32(boardId.value), timestamp, tempAvg.value));
  }

  /** The server's `board_table`, filled once at start-up. */
  class SensorStore {
    var boards: BoardTable

    constructor ()
      ensures boards == map[] && WellFormed(boards)
    {
      boards := map[];
    }

    /**
     * Stores one row: finds or creates its board, then inserts its record
     * or overwrites the existing one field by field.
     */
    method Upsert(row: Row)
      modifies this
      ensures boards == Apply(old(boards), row)
    {
      if row.boardId !in boards {
        boards := boards[row.boardId := Board(row.boardId, map[])];
      }
      var board := boards[row.boardId];
      var dataTable := board.dataTable;
      if row.timestamp !in dataTable {
        dataTable := dataTable[row.timestamp := Data(row.boardId, row.timestamp, row.tempAvg)];
      } else {
        var record := dataTable[row.timestamp];
        record := record.(boardId := row.boardId);
        record := record.(timestamp := row.timestamp);
        record := record.(tempAvg := row.tempAvg);
        dataTable := dataTable[row.timestamp := record];
      }
      boards := boards[row.boardId := board.(dataTable := dataTable)];
    }

    /**
     * Reads a whole file: the first line is the header and is dropped,
     * empty lines are skipped, and an exception from a parser ends the
     * load with the rows before it stored.
     */
    method FillData(lines: seq<Line>, parseTime: TimeParser, parseTemp: TempParser) returns (error: Option<ParseError>)
      modifies this
      ensures |lines| == 0 ==> boards == old(boards) && error == None
      ensures |lines| > 0 ==>
        Loaded(boards, error) == Load(old(boards), EventsOf(lines[1..], parseTime, parseTemp))
      ensures WellFormed(old(boards)) ==> WellFormed(boards)
    {
      error := None;
      if |lines| == 0 {
        return;
      }
      var body := lines[1..];
      ghost var t0 := boards;
      ghost var es := EventsOf(body, parseTime, parseTemp);
      var i := 0;
      while i < |body| && error.None?
        invariant 0 <= i <= |body|
        invariant Load(t0, es[..i]) == Loaded(boards, error)
      {
        var e := ReadLine(body[i], parseTime, parseTemp);
        LoadPrefix(t0, es, i);
        match e {
          case Skipped =>
          case Failed(err) =>
            error := Some(err);
          case Stored(row) =>
            Upsert(row);
        }
        i := i + 1;
      }
      LoadDone(t0, es, i, Loaded(boards, error));
      if WellFormed(t0) {
        LoadKeepsWellFormed(t0, es);
      }
    }
  }
}

=== FILE: publisher.dfy ===
/**
 * The per-board publisher of the server (class publisher_connection): the
 * topic it publishes on, and the send rules of its `run` loop and its
 * `on_disconnect` callback. The network calls (connect, publish, loop,
 * disconnect) are events: a round of the loop says what it published.
 */
module Publishing {
  import opened Wrappers
  import opened Text
  import opened Loader

  /** The quality-of-service level every reading is published with. */
  const QOS: nat := 1

  /** A publish request the loop hands to the messaging library. */
  datatype Publish = Publish(topic: string, record: Data, qos: nat)

  /** The topic of a board's publisher: "sensor/" and the board id in decimal. */
  function Topic(boardId: u32): string
  {
    "sensor/" + NatToString(boardId)
  }

  /**
   * A topic is "sensor/" followed by decimal digits without leading zeros,
   * and those digits read back as the board id.
   */
  lemma TopicNamesBoard(boardId: u32)
    ensures |Topic(boardId)| > 7 && Topic(boardId)[..7] == "sensor/"
    ensures var digits := Topic(boardId)[7..];
      AllDigits(digits) && (|digits| > 1 ==> digits[0] != '0') && DecValue(digits) == boardId
  {
    assert Topic(boardId)[7..] == NatToString(boardId);
    DecValueOfNatToString(boardId);
  }

  /** Two boards never share a topic. */
  lemma TopicsDistinct(a: u32, b: u32)
    requires a != b
    ensures Topic(a) != Topic(b)
  {
    TopicNamesBoard(a);
    TopicNamesBoard(b);
  }

  /** k is the least element of s. */
  predicate IsLeast(k: u64, s: set<u64>)
  {
    k in s && forall x :: x in s ==> k <= x
  }

  /** Every non-empty set of timestamps has a least element. */
  lemma {:induction false} LeastExists(s: set<u64>)
    requires s != {}
    ensures exists k :: IsLeast(k, s)
    decreases |s|
  {
    var y :| y in s;
    if s != {y} {
      var rest := s - {y};
      LeastExists(rest);
      var m :| IsLeast(m, rest);
      var least := if y < m then y else m;
      forall x | x in s ensures least <= x {
        if x != y {
          assert x in rest;
        }
      }
      assert IsLeast(least, s);
    } else {
      assert IsLeast(y, s);
    }
  }

  /** The least key: where a std::map's begin() points. */
  function Least(s: set<u64>): (k: u64)
    requires s != {}
    ensures k in s && forall x :: x in s ==> k <= x
  {
    LeastExists(s);
    var k :| IsLeast(k, s);
    k
  }

  /** keys lists the keys of m once each, in ascending order. */
  predicate Ascending(keys: seq<u64>, m: map<u64, Data>)
  {
    && |keys| == |m|
    && (forall i :: 0 <= i < |keys| ==> keys[i] in m)
    && (forall k :: k in m ==> k in keys)
    && (forall i, j :: 0 <= i < j < |keys| ==> keys[i] < keys[j])
  }

  /** The keys of a data table in the order a std::map iterates them. */
  function SortedKeys(m: map<u64, Data>): (keys: seq<u64>)
    ensures Ascending(keys, m)
    decreases |m|
  {
    if |m| == 0 then []
    else
      assert m.Keys != {};
      var k := Least(m.Keys);
      var rest := m - {k};
      assert rest.Keys == m.Keys - {k};
      assert |rest.Keys| == |m.Keys| - 1;
      var tail := SortedKeys(rest);
      PrependLeast(m, k, tail);
      [k] + tail
  }

  /** The least key, then the others in ascending order, is all keys in ascending order. */
  lemma PrependLeast(m: map<u64, Data>, k: u64, tail: seq<u64>)
    requires IsLeast(k, m.Keys) && Ascending(tail, m - {k})
    ensures Ascending([k] + tail, m)
  {
    LeastBelowTail(m, k, tail);
    KeysCovered(m, k, tail);
  }

  /** The least key and the keys of the rest are the keys of m, and as many. */
  lemma KeysCovered(m: map<u64, Data>, k: u64, tail: seq<u64>)
    requires k in m && Ascending(tail, m - {k})
    ensures |[k] + tail| == |m|
    ensures forall i :: 0 <= i < |[k] + tail| ==> ([k] + tail)[i] in m
    ensures forall x :: x in m ==> x in [k] + tail
  {
    var rest := m - {k};
    assert rest.Keys == m.Keys - {k};
    assert |rest.Keys| == |m.Keys| - 1;
    forall x | x in m ensures x in [k] + tail {
      if x != k {
        assert x in rest;
      }
    }
  }

  /** The least key, then keys above it in ascending order, is in ascending order. */
  lemma LeastBelowTail(m: map<u64, Data>, k: u64, tail: seq<u64>)
    requires IsLeast(k, m.Keys) && Ascending(tail, m - {k})
    ensures forall i, j :: 0 <= i < j < |[k] + tail| ==> ([k] + tail)[i] < ([k] + tail)[j]
  {
    var keys := [k] + tail;
    forall i | 0 <= i < |tail| ensures k < tail[i] {
      assert tail[i] in (m - {k}).Keys;
    }
    forall i, j | 0 <= i < j < |keys| ensures keys[i] < keys[j] {
      assert keys[j] == tail[j - 1];
      if i > 0 {
        assert keys[i] == tail[i - 1];
      }
    }
  }

  /**
   * One publisher while its `run` loop goes on. `cursor` is the iterator
   * `data_ptr` as a position in the board's ascending keys: 0 is begin()
   * and the number of keys is end().
   */
  class Publisher {
    const board: Board
    const topic: string
    var sending: bool
    var cursor: nat

    /**
     * The topic names the board, and the cursor is at begin() or end():
     * it is set to begin() and never advanced.
     */
    ghost predicate Valid()
      reads this
    {
      topic == Topic(board.boardId) && (cursor == 0 || cursor == |board.dataTable|)
    }

    /** Construction, and the start of `run`: not sending, cursor at begin(). */
    constructor (board: Board)
      ensures Valid() && this.board == board
      ensures topic == "sensor/" + NatToString(board.boardId)
      ensures !sending && cursor == 0
    {
      this.board := board;
      this.topic := "sensor/" + NatToString(board.boardId);
      sending := false;
      cursor := 0;
    }

    /**
     * One round of the `run` loop. When no send is under way it starts
     * one: it moves the cursor back to begin() if it is at end(), marks
     * the publisher as sending, and publishes the record under the cursor.
     * A round during a send publishes nothing. The board's table must not
     * be empty: the loop would dereference end().
     */
    method Step() returns (sent: Option<Publish>)
      requires Valid() && |board.dataTable| > 0
      modifies this
      ensures Valid() && sending
      ensures old(sending) ==> sent == None && cursor == old(cursor)
      ensures !old(sending) ==> cursor == 0
      ensures !old(sending) ==> sent == Some(Publish(topic, board.dataTable[Least(board.dataTable.Keys)], QOS))
    {
      if !sending {
        var keys := SortedKeys(board.dataTable);
        if cursor == |keys| {
          cursor := 0;
        }
        sending := true;
        sent := Some(Publish(topic, board.dataTable[keys[cursor]], QOS));
      } else {
        sent := None;
      }
    }

    /** The `on_disconnect` callback: the send is over, and the next round may start another. */
    method OnDisconnect()
      requires Valid()
      modifies this
      ensures Valid() && !sending && cursor == old(cursor)
    {
      sending := false;
    }
  }

  /**
   * Two sends of one publisher, with the disconnect between them: both
   * publish the board's earliest reading on the board's topic.
   */
  method SendTwice(board: Board) returns (first: Option<Publish>, second: Option<Publish>)
    requires |board.dataTable| > 0
    ensures first == second
    ensures first.Some? && first.value.topic == Topic(board.boardId)
    ensures first.Some? && first.value.record == board.dataTable[Least(board.dataTable.Keys)]
  {
    var p := new Publisher(board);
    first := p.Step();
    var idle := p.Step();
    assert idle == None;
    p.OnDisconnect();
    second := p.Step();
  }
}

=== FILE: text.dfy ===
/**
 * The parts of the C++ standard library that the sensor loader and the
 * publisher rely on, over std::string modelled as seq<char>:
 * std::string::find and substr with the size_t arithmetic around npos,
 * std::stoi, std::to_string, and the fixed-width integer conversions.
 */
module Text {
  import opened Wrappers

  /** std::string::npos, the largest size_t value (2^64 - 1). */
  const NPOS: nat := 0xFFFF_FFFF_FFFF_FFFF

  /** A std::string: its length is always below npos. */
  type Line = s: string | |s| < NPOS

  type u32 = x: int | 0 <= x < 0x1_0000_0000
  type u64 = x: int | 0 <= x < 0x1_0000_0000_0000_0000

  /** The range of int, which std::stoi checks its result against. */
  const INT_MIN: int := -0x8000_0000
  const INT_MAX: int := 0x7FFF_FFFF

  /** Conversion of an integer to uint32_t: the value modulo 2^32. */
  function ToU32(x: int): (r: u32)
    ensures 0 <= x ==> r <= x
    ensures 0 <= x < 0x1_0000_0000 ==> r == x
    ensures -0x1_0000_0000 <= x < 0 ==> r == x + 0x1_0000_0000
  {
    x % 0x1_0000_0000
  }

  /** Conversion of an integer (a time_t here) to uint64_t: the value modulo 2^64. */
  function ToU64(x: int): (r: u64)
    ensures 0 <= x ==> r <= x
    ensures 0 <= x < 0x1_0000_0000_0000_0000 ==> r == x
    ensures -0x1_0000_0000_0000_0000 <= x < 0 ==> r == x + 0x1_0000_0000_0000_0000
  {
    x % 0x1_0000_0000_0000_0000
  }

  /** size_t increment, `pos + 1`: it wraps npos, the largest size_t, around to 0. */
  function Inc(p: nat): (r: nat)
    requires p <= NPOS
  {
    if p == NPOS then 0 else p + 1
  }

  /** The wrap-around of Inc is that of size_t: pos + 1 cast to 64 bits. */
  lemma IncIsSizeTAdd(p: nat)
    requires p <= NPOS
    ensures Inc(p) == ToU64(p + 1)
  {
    if p == NPOS {
      assert (p + 1) % 0x1_0000_0000_0000_0000 == 0;
    }
  }

  function Min(a: nat, b: nat): nat
  {
    if a <= b then a else b
  }

  /**
   * s.find(c, from): the first position at or after `from` that holds c,
   * or npos when there is none (also when `from` is past the end).
   */
  function Find(s: Line, c: char, from: nat): (r: nat)
    ensures r == NPOS || (from <= r < |s| && s[r] == c)
    ensures r == NPOS <==> forall j :: from <= j < |s| ==> s[j] != c
    ensures r != NPOS ==> forall j :: from <= j < r ==> s[j] != c
    decreases |s| - from
  {
    if from >= |s| then NPOS
    else if s[from] == c then from
    else Find(s, c, from + 1)
  }

  /**
   * s.substr(pos, count): at most `count` characters starting at `pos`.
   * A `pos` past the end would throw out_of_range; no caller reaches that.
   */
  function Substr(s: string, pos: nat, count: nat): (r: string)
    requires pos <= |s|
    ensures |r| <= count && r <= s[pos..]
    ensures |r| == count || r == s[pos..]
  {
    s[pos..pos + Min(count, |s| - pos)]
  }

  /**
   * The comma-separated fields of a CSV line without quoting, as an
   * independent reference for what the loader's position arithmetic
   * extracts.
   */
  function Split(s: string): (fields: seq<string>)
    ensures |fields| >= 1
  {
    if |s| == 0 then [""]
    else if s[0] == ',' then [""] + Split(s[1..])
    else
      var rest := Split(s[1..]);
      [[s[0]] + rest[0]] + rest[1..]
  }

  /**
   * A search for the next comma from `from` cuts the first field off the
   * rest of the line: it ends the field when there is one, and otherwise
   * the rest of the line is the last field.
   */
  lemma SplitFind(s: Line, from: nat)
    requires from <= |s|
    ensures Find(s, ',', from) == NPOS ==> Split(s[from..]) == [s[from..]]
    ensures Find(s, ',', from) != NPOS ==>
      Split(s[from..]) == [s[from..Find(s, ',', from)]] + Split(s[Find(s, ',', from) + 1..])
  {
    if Find(s, ',', from) == NPOS {
      SplitLastField(s, from);
    } else {
      SplitAtComma(s, from);
    }
  }

  /** With no comma after `from`, the rest of the line is a single field. */
  lemma {:induction false} SplitLastField(s: Line, from: nat)
    requires from <= |s| && Find(s, ',', from) == NPOS
    ensures Split(s[from..]) == [s[from..]]
    decreases |s| - from
  {
    if from < |s| {
      var t := s[from..];
      assert t[0] == s[from] && t[1..] == s[from + 1..];
      SplitLastField(s, from + 1);
      assert [s[from]] + s[from + 1..] == t;
    }
  }

  /** The comma found after `from` ends the field that starts there. */
  lemma {:induction false} SplitAtComma(s: Line, from: nat)
    requires from <= |s| && Find(s, ',', from) != NPOS
    ensures Split(s[from..]) == [s[from..Find(s, ',', from)]] + Split(s[Find(s, ',', from) + 1..])
    decreases |s| - from
  {
    var f := Find(s, ',', from);
    var t := s[from..];
    assert t[0] == s[from] && t[1..] == s[from + 1..];
    if s[from] == ',' {
      assert s[from..from] == "";
    } else {
      assert f == Find(s, ',', from + 1);
      SplitAtComma(s, from + 1);
      assert [s[from]] + s[from + 1..f] == s[from..f];
    }
  }

  /** isspace in the "C" locale: space, \t, \n, \v, \f and \r. */
  predicate IsSpace(c: char)
  {
    c == ' ' || ('\t' <= c <= '\r')
  }

  predicate IsDigit(c: char)
  {
    '0' <= c <= '9'
  }

  predicate AllDigits(s: string)
  {
    forall i :: 0 <= i < |s| ==> IsDigit(s[i])
  }

  /** What is left of s once its leading white space is skipped. */
  function SkipSpace(s: string): (r: string)
    ensures |r| <= |s| && r == s[|s| - |r|..]
    ensures forall i :: 0 <= i < |s| - |r| ==> IsSpace(s[i])
    ensures |r| > 0 ==> !IsSpace(r[0])
  {
    if |s| > 0 && IsSpace(s[0]) then SkipSpace(s[1..]) else s
  }

  /** The longest prefix of s made of decimal digits. */
  function DigitPrefix(s: string): (r: string)
    ensures |r| <= |s| && r == s[..|r|]
    ensures AllDigits(r)
    ensures |r| < |s| ==> !IsDigit(s[|r|])
  {
    if |s| > 0 && IsDigit(s[0]) then [s[0]] + DigitPrefix(s[1..]) else []
  }

  /** The number a string of decimal digits denotes. */
  function DecValue(d: string): nat
    requires AllDigits(d)
  {
    if |d| == 0 then 0
    else 10 * DecValue(d[..|d| - 1]) + (d[|d| - 1] as int - '0' as int)
  }

  /**
   * std::stoi (base 10): skip white space, read an optional sign and the
   * digits after it. None stands for the exceptions it throws: no digit at
   * all (invalid_argument) or a value outside int (out_of_range).
   */
  function Stoi(s: string): (r: Option<int>)
    ensures r.Some? ==> INT_MIN <= r.value <= INT_MAX
    ensures |SkipSpace(s)| == 0 ==> r == None
  {
    SignedInt(SkipSpace(s))
  }

  /** The digits after an optional sign: the part of std::stoi after the white space. */
  function Unsigned(t: string): string
  {
    if |t| > 0 && (t[0] == '-' || t[0] == '+') then t[1..] else t
  }

  /** The optionally signed decimal at the head of t, when there is one and it fits an int. */
  function SignedInt(t: string): (r: Option<int>)
    ensures r.Some? ==> INT_MIN <= r.value <= INT_MAX
    ensures |t| == 0 ==> r == None
  {
    var digits := DigitPrefix(Unsigned(t));
    var v: int := if |t| > 0 && t[0] == '-' then -(DecValue(digits) as int) else DecValue(digits);
    if |digits| == 0 || v < INT_MIN || INT_MAX < v then None else Some(v)
  }

  lemma {:induction false} SkipSpaceAppend(a: string, b: string)
    requires |b| > 0 && !IsSpace(b[0])
    ensures SkipSpace(a + b) == SkipSpace(a) + b
  {
    if |a| > 0 {
      assert (a + b)[1..] == a[1..] + b;
      if IsSpace(a[0]) {
        SkipSpaceAppend(a[1..], b);
      }
    }
  }

  lemma {:induction false} DigitPrefixAppend(a: string, b: string)
    requires |b| > 0 && !IsDigit(b[0])
    ensures DigitPrefix(a + b) == DigitPrefix(a)
  {
    if |a| > 0 {
      assert (a + b)[1..] == a[1..] + b;
      if IsDigit(a[0]) {
        DigitPrefixAppend(a[1..], b);
      }
    }
  }

  /** A non-digit after the head of t cannot change the number read from it. */
  lemma SignedIntAppend(t: string, b: string)
    requires |b| > 0 && !IsDigit(b[0]) && b[0] != '-' && b[0] != '+'
    ensures SignedInt(t + b) == SignedInt(t)
  {
    if |t| > 0 && (t[0] == '-' || t[0] == '+') {
      assert (t + b)[1..] == t[1..] + b;
    }
    assert Unsigned(t + b) == Unsigned(t) + b;
    DigitPrefixAppend(Unsigned(t), b);
  }

  /**
   * std::stoi stops reading at a comma: whatever follows a field's comma
   * cannot change what the field parses to, or whether it parses.
   */
  lemma StoiStopsAtComma(field: string, rest: string)
    ensures Stoi(field + [','] + rest) == Stoi(field)
  {
    var b := [','] + rest;
    assert field + [','] + rest == field + b;
    SkipSpaceAppend(field, b);
    SignedIntAppend(SkipSpace(field), b);
  }

  function DigitChar(d: nat): (c: char)
    requires d < 10
    ensures IsDigit(c) && c as int - '0' as int == d
  {
    ('0' as int + d) as char
  }

  /** std::to_string of an unsigned value: its decimal digits, without leading zeros. */
  function NatToString(n: nat): (r: string)
    ensures |r| >= 1 && AllDigits(r)
    ensures r[0] == '0' <==> n == 0
    ensures |r| == 1 <==> n < 10
  {
    if n < 10 then [DigitChar(n)] else NatToString(n / 10) + [DigitChar(n % 10)]
  }

  /** Reading the decimal rendering of n gives n back. */
  lemma {:induction false} DecValueOfNatToString(n: nat)
    ensures DecValue(NatToString(n)) == n
  {
    if n >= 10 {
      var s := NatToString(n);
      DecValueOfNatToString(n / 10);
      assert s[..|s| - 1] == NatToString(n / 10);
    }
  }

  /** std::stoi reads back what std::to_string wrote, for every value int can hold. */
  lemma StoiOfNatToString(n: nat)
    requires n <= INT_MAX
    ensures Stoi(NatToString(n)) == Some(n)
  {
    DecValueOfNatToString(n);
    StoiOfDigits(NatToString(n));
  }

  /** A plain string of digits is read whole by std::stoi. */
  lemma StoiOfDigits(s: string)
    requires |s| >= 1 && AllDigits(s) && DecValue(s) <= INT_MAX
    ensures Stoi(s) == Some(DecValue(s))
  {
    DigitsReadWhole(s);
  }

  /** A plain string of digits has no white space or sign to skip, and is all digits. */
  lemma DigitsReadWhole(s: string)
    requires |s| >= 1 && AllDigits(s)
    ensures DigitPrefix(Unsigned(SkipSpace(s))) == s
  {
    assert SkipSpace(s) == s;
    assert Unsigned(s) == s;
    DigitPrefixOfDigits(s);
  }

  lemma DigitPrefixOfDigits(s: string)
    requires AllDigits(s)
    ensures DigitPrefix(s) == s
  {
    var r := DigitPrefix(s);
    assert |r| == |s|;
  }
}

=== FILE: wrappers.dfy ===
/** Failure-compatible result types shared by the loader and the publisher. */
module Wrappers {

  /** A value that may be absent. */
  datatype Option<+T> = None | Some(value: T)

  /** The value of a computation, or the error (a thrown C++ exception) that ended it. */
  datatype Result<+T, +E> = Ok(value: T) | Err(error: E)
}
